=== FILE: README.md ===
# Howling suppression: a verified model of the detector and the feedback loop

This project models the discrete core of a howling (acoustic feedback) suppressor in Dafny:

- the per-frame howling detector;
- the sample-by-sample simulation of a microphone–amplifier–speaker loop that drives the detector and redesigns a cascade of notch filters.

The spectra, the dB arithmetic, the window and FFT and the design of one notch section are real-valued library computations. They enter as values or as functions supplied by the caller. What is modelled and proved is the selection, bookkeeping and buffer logic around them.

Modules, in dependency order:

- `IndexLists` holds facts about sorted lists of bin indices. It also defines the intersection of two candidate lists.
- `Criteria` holds the three per-frame criteria:
  - PTPR (peak-to-threshold);
  - PAPR (peak-to-average);
  - PNPR (peak-to-neighbouring: bins 4 and 5 away on both sides, never within 5 bins of an edge).

  Each is a loop that appends the bins passing its test. Each is proved to return exactly the passing bins, in strictly ascending order.
- `Persistence` models IPMP, the inter-frame persistence test. For each bin it sums the candidate matrix's row over a window of recent frames and keeps the bins with a sum of at least 3.
  - The window uses the source language's slice rules: a negative start counts from the end of the row, and bounds are clipped.
  - The window therefore grows for frames 2 and 3, slides over five frames from frame 4 on, and is empty for frames 0 and 1 once the matrix has five columns.
- `Screener` models the screening walk. It keeps one representative per cluster of confirmed bins closer than 3 bins, namely the one with the strictly larger magnitude.
  - `Screen` is its specification.
  - `Screening` is the loop that overwrites the last representative in place.
- `Detector` models one frame of detection:
  1. the three criteria over the analysed half of the spectrum;
  2. their intersection;
  3. marking the current frame's column of the candidate matrix;
  4. IPMP;
  5. the screener.
- `FilterBank` holds the arithmetic of the loop:
  - amplitude clipping to [-2, 2];
  - the delay-line shift register;
  - the IIR difference equation;
  - the reduction of second-order sections to one transfer function, by polynomial multiplication with leading zeros trimmed;
  - the mapping from FFT bins to Hz.
- `FeedbackLoop` holds the run's frame parameters, derived from the sample rate and the input length. It also holds the loop variables as values:
  - `Setup` is fixed for one run;
  - `State` has a detection side (`Detection`, which carries the notch `Cascade` in force) and a filter side (`Delays`).

  The module also states their invariants and the relations one sample establishes between them (`Advanced`, `FrameEnded`, `Redesigned`, `Filtered`).
- `Simulation` performs the loop.
  - `Step` processes one sample.
  - `Run` processes the whole input and writes the speaker output into an array in place.

Three behaviours of the code are modelled as written:

- **The output slot after a redesign.** The notch-design loop reuses the outer loop's sample index as its own counter (test_howling_suppression.py:144). On a sample where the cascade is redesigned, the speaker output is written at index `len(notch_freqs) - 1`, not at the current sample.
  - `Redesigned` and `Step` return that slot as `written`, which is strictly before the current sample.
  - `Run` writes the output there.
  - On such a sample the current slot is left at zero: every earlier write went to an earlier slot. Only a later redesign whose last section index equals it can write it.
- **A filter that does not fit its delay lines.** When the transfer function in force has more coefficients than the delay lines hold, the inner products at :157 have mismatched lengths and the program stops with an error. The model returns `ok == false` and `Run` stops at that sample.
  - `FitsDelayLines` is the condition under which the filter runs: at most 100 numerator coefficients, and at most as many denominator coefficients beyond the first as the impulse response has taps.
  - `NotchCascadeFits` restates that condition in terms of the number of notches.
  - With a one-tap impulse response even the initial filter does not fit.
- **The frequency axis.** It is `linspace(0, Srate, nFFT)`, so bin `k` is at `k * Srate / (nFFT - 1)` Hz, not `k * Srate / nFFT` as an FFT's bin spacing would suggest. The model follows the code.

Four further facts about the code that the model makes explicit:

- The docstring of `ipmp` (pyHowling/howling_detection.py:88) speaks of "more than 3" frames, but the test at :108 is `>= 3`. The model follows the test.
- At frames 0 and 1 the slice start `index-4` at :105 is negative and wraps to the end of the row, so the window is empty once the matrix has five columns. Nothing is confirmed there (`NothingConfirmedInFirstTwoFrames`).
- Bins on the frequency axis of :57 are `Srate/(nFFT-1)` apart (`Linspace`).
- `iirnotch` at :145 is never asked for a frequency outside the open band between 0 Hz and half the sample rate. Every notch in force sits on a bin at least 5 bins from either edge of the analysed half of the spectrum (`NotchesInsideBand`, using `BinBelowNyquist`).

## Model

| member | source | states |
|---|---|---|
| Criteria.Ptpr | pyHowling/howling_detection.py:35-52 | returns, strictly ascending, exactly the bins whose dB power exceeds the threshold |
| Criteria.Papr | pyHowling/howling_detection.py:11-33 | returns one ratio per bin, equal to the bin's dB power minus the average dB power, and, strictly ascending, exactly the bins whose ratio exceeds the threshold |
| Criteria.Pnpr | pyHowling/howling_detection.py:63-83 | returns, strictly ascending, exactly the bins at least 5 from both edges whose dB value exceeds those of the bins 4 and 5 below and above by more than the threshold; it is empty when there are at most 10 bins |
| Persistence.SliceIndex | pyHowling/howling_detection.py:101-105 | a slice bound resolves as the source language does: a bound inside the row is kept, a negative one counts from the end, and the result is clipped to the row |
| Persistence.SliceBounds | pyHowling/howling_detection.py:101-105 | the positions `row[start:stop]` selects: both bounds resolved by `SliceIndex`, an empty range when they cross, never past the row |
| Persistence.Window | pyHowling/howling_detection.py:100-105 | the summed columns are exactly `index-4..index` from frame 4 on and `0..index` for frames 2 and 3; for frames 0 and 1 the window holds at most two columns and is empty once the matrix has five columns |
| Persistence.WindowSum | pyHowling/howling_detection.py:101-105 | the sum of one bin's row over its window at frame `index` (definition; its meaning on 0/1 rows is `ConfirmedIffMarkedInWindow`) |
| Persistence.Ipmp | pyHowling/howling_detection.py:85-109 | returns, strictly ascending, exactly the bins whose windowed sum is at least 3 |
| Persistence.SumCountsMarks | pyHowling/howling_detection.py:101-108 | on a 0/1 row the sum is the number of marked frames and at most the row length |
| Persistence.ConfirmedIffMarkedInWindow | pyHowling/howling_detection.py:105-108 | on a 0/1 matrix a bin is confirmed exactly when at least 3 frames in its window marked it |
| Persistence.AtMostTwoMarksNotConfirmed | pyHowling/howling_detection.py:105-108 | a bin with at most two marks in its window is never confirmed |
| Persistence.NothingConfirmedInFirstTwoFrames | pyHowling/howling_detection.py:104-108 | at frames 0 and 1 nothing is confirmed, whatever the matrix width |
| Persistence.MarkedInFirstThreeFramesConfirmed | pyHowling/howling_detection.py:100-101 | a bin marked in frames 0, 1 and 2 is confirmed at frame 2 |
| Screener.Screen | pyHowling/howling_detection.py:114-135 | every representative comes from the input; the output is empty exactly when the input is; it is no longer than the input |
| Screener.Absorb | pyHowling/howling_detection.py:128-134 | one step of the walk; every representative stays inside the spectrum (definition; its cases are `AbsorbOpens` and `AbsorbMerge`) |
| Screener.Screening | pyHowling/howling_detection.py:126-135 | the in-place walk returns what `Screen` specifies |
| Screener.ScreenSpaced | pyHowling/howling_detection.py:126-135 | on strictly ascending input the representatives are strictly ascending and consecutive ones are at least 3 bins apart |
| Screener.ScreenKeepsSpacedInput | pyHowling/howling_detection.py:130-134 | an input already spaced at least 3 apart is returned unchanged |
| Screener.ScreenIdempotent | pyHowling/howling_detection.py:126-135 | on strictly ascending input (what `ipmp` yields) screening the representatives again changes nothing |
| Screener.ScreenSnoc | pyHowling/howling_detection.py:127-134 | screening one more bin is one more step of the walk |
| Screener.AbsorbOpens | pyHowling/howling_detection.py:128-134 | a newcomer to an empty list, or at least 3 past the last representative, is appended |
| Screener.AbsorbMerge | pyHowling/howling_detection.py:130-132 | a newcomer within 3 bins replaces the last representative exactly when its magnitude is strictly larger, and otherwise the list is unchanged, so a tie keeps the earlier bin; the earlier representatives are untouched |
| Screener.ScreenMergeKeepsStronger | pyHowling/howling_detection.py:130-132 | the same for the whole walk: the last representative becomes the newcomer when the newcomer is strictly stronger and stays otherwise (a tie keeps the earlier one); the kept bin is the stronger of the two and the length is unchanged |
| Screener.ScreenOpensCluster | pyHowling/howling_detection.py:133-134 | a newcomer at least 3 past the last representative is appended |
| IndexLists.Intersect | test_howling_suppression.py:20 | holds exactly the bins present in both lists; it is strictly ascending when the first list is, and no longer than it |
| IndexLists.SpacedIsIncreasing | pyHowling/howling_detection.py:130-134 | a list spaced at least 1 apart is strictly ascending |
| IndexLists.SpacedSpan | pyHowling/howling_detection.py:130-134 | in a list spaced `gap` apart, the last element is at least `(n-1)*gap` past the first |
| Detector.Mark | test_howling_suppression.py:24-25 | column `frameId` becomes 1 in exactly the listed rows; every other cell and every row length is unchanged |
| Detector.HowlingDetect | test_howling_suppression.py:12-30 | the matrix is marked in column `frameId` at exactly the bins passing all three criteria; the result is the screened IPMP list of the marked matrix, strictly ascending, spaced 3 apart and at least 5 bins from either edge; the matrix stays 0/1 with marks only in that range |
| Detector.ConfirmedAreGuarded | pyHowling/howling_detection.py:100-108 | on a matrix whose marks all lie at least 5 bins from either edge, so does every confirmed bin (PNPR's edge range, :77, is where marks come from) |
| FilterBank.Clip | test_howling_suppression.py:155-159 | the result lies in [-2, 2]; a value in range is unchanged; values beyond a bound become that bound |
| FilterBank.Push | test_howling_suppression.py:153-154 | for `x2` here and `x3` at :160-161, the new value lands in slot 0; slot `k` takes the old slot `k-1`; the length is unchanged and the oldest value drops out |
| FilterBank.Dot | test_howling_suppression.py:162 | the inner product of two vectors of equal length, as `np.dot` computes it at :157 and :162 (definition) |
| FilterBank.FitsDelayLines | test_howling_suppression.py:157 | the shapes for which the two inner products at :157 are defined: at most 100 numerator coefficients, a non-empty denominator, and no more denominator coefficients beyond the first than `x3` has slots (definition) |
| FilterBank.IirOutput | test_howling_suppression.py:157 | the difference equation: the numerator over the newest inputs minus the denominator without its leading coefficient over the newest outputs (definition; its pass-through case is `InitialFilterPassesThrough`) |
| FilterBank.InitialFilterPassesThrough | test_howling_suppression.py:157 | with the initial `b = [1,0,0]`, `a = [0,0,0]` of :120-121 the filter fits the delay lines and the difference equation returns the newest input |
| FilterBank.Biquad.Row | test_howling_suppression.py:146 | a section's row holds six coefficients: numerator, then denominator |
| FilterBank.Sections | test_howling_suppression.py:143-146 | one six-coefficient row per notch frequency |
| FilterBank.DesignSections | test_howling_suppression.py:143-146 | the design loop fills row `k` with the section designed for frequency `k`, and returns `Sections` |
| FilterBank.TrimLeadingZeros | test_howling_suppression.py:147 | keeps at least one coefficient, never lengthens, and leaves a polynomial with a non-zero leading coefficient unchanged |
| FilterBank.Convolve | test_howling_suppression.py:147 | the product's degree is the sum of the degrees and its leading coefficient the product of the leading coefficients |
| FilterBank.PolyMul | test_howling_suppression.py:147 | for non-zero leading coefficients, multiplication after trimming is the plain product |
| FilterBank.Sos2Tf | test_howling_suppression.py:147 | numerator and denominator each have at least one coefficient |
| FilterBank.CascadeOrder | test_howling_suppression.py:147 | `k` sections with non-zero leading coefficients give a transfer function of `2k+1` numerator and `2k+1` denominator coefficients, with non-zero leading coefficients |
| FilterBank.GrowsByOneSection | test_howling_suppression.py:147 | multiplying by one section adds two coefficients and keeps the leading one non-zero |
| FilterBank.Linspace | test_howling_suppression.py:57 | `nFFT` points from 0 Hz to the sample rate, both included, point `k` at `k*Srate/(nFFT-1)` |
| FilterBank.LinspaceAscending | test_howling_suppression.py:57 | with a positive sample rate the axis is strictly ascending |
| FilterBank.BinToHzIncreasing | test_howling_suppression.py:57 | a higher bin has a higher frequency |
| FilterBank.Pick | test_howling_suppression.py:142 | the frequencies of the listed bins, in list order |
| FilterBank.PickInjective | test_howling_suppression.py:141 | on an ascending axis two bin lists pick equal frequencies exactly when they are equal |
| FilterBank.BinBelowNyquist | test_howling_suppression.py:145 | a bin strictly inside the lower half of the spectrum lies strictly between 0 Hz and half the sample rate |
| FeedbackLoop.Configure | test_howling_suppression.py:49-58 | on success `Slen` is even and is `floor(Srate/100)` or one more, `len1 + len2 == Slen` with `len2 == Slen/2`, `nFFT == 2*Slen` and `Nframes == floor(len(x)/len2) - 2`; it fails exactly when the hop is empty (`Srate < 100`) or the input is shorter than one hop |
| FeedbackLoop.Counters | test_howling_suppression.py:135-151 | the position and frame index after `n` samples: the position advances and, when the frame is full, falls back to `len2` while the frame index advances (definition; its properties are `CountersMakeProgress` and `FrameCount`) |
| FeedbackLoop.CountersMakeProgress | test_howling_suppression.py:135-151 | after `n` samples the position lies in `[0, Slen)`, the samples seen are the position plus one hop per completed frame, and no frame has completed exactly while `n < Slen` |
| FeedbackLoop.ProgressDeterminesCounters | test_howling_suppression.py:135-151 | those facts determine the position and the frame index uniquely |
| FeedbackLoop.ProgressStep | test_howling_suppression.py:135-151 | one sample advances the position, or at a full frame resets it to `len2` and advances the frame index by exactly 1 |
| FeedbackLoop.FrameCount | test_howling_suppression.py:129-151 | with `Nframes` from :58, an input of at least `Slen` samples reaches exactly `Nframes + 1` frame boundaries |
| FeedbackLoop.BoundaryWithinColumns | test_howling_suppression.py:129-137 | every frame boundary uses a frame index below `Nframes + 1`, so the marking stays inside the candidate matrix |
| FeedbackLoop.RedesignIffBinsChange | test_howling_suppression.py:141 | on the ascending axis the gate opens exactly when the detected bins are non-empty and differ from the bins in force |
| FeedbackLoop.NeedsRedesign | test_howling_suppression.py:141 | the gate: the result is non-empty and differs from the notch frequencies in force in length or in some frequency (definition) |
| FeedbackLoop.GateComparesFrequencies | test_howling_suppression.py:141 | the gate opens exactly when the result is non-empty and its frequencies differ from the notch frequencies in force; the length test only short-cuts that comparison |
| FeedbackLoop.NotchesInsideBand | test_howling_suppression.py:145 | on the run's frequency axis every notch frequency in force lies strictly between 0 Hz and half the sample rate |
| FeedbackLoop.DetectedCountBound | test_howling_suppression.py:143 | detected bins spaced 3 apart and at least 5 from both edges satisfy `(n-1)*3 + 10 < Slen` for `n` bins, so a cascade has fewer than `Slen/3` sections |
| FeedbackLoop.NotchCascadeFits | test_howling_suppression.py:157 | for sections with non-zero leading coefficients, as `iirnotch` designs them, a cascade from `sos2tf` (:147) of `k` notches fits the delay lines exactly when `2k+1 <= 100` and `2k` is at most the number of impulse-response taps |
| FeedbackLoop.MakeSetup | test_howling_suppression.py:122 | the run's parameters come from `Configure`, the impulse response is cut to its first 2000 taps and the axis is `Linspace` |
| FeedbackLoop.Initial | test_howling_suppression.py:120-131 | zeroed frame, delay lines and candidate matrix (`Slen` rows, `Nframes + 1` columns), position and frame index 0, the pass-through filter, no notches, no feedback, and the loop invariant |
| FeedbackLoop.PassThroughBeforeRedesign | test_howling_suppression.py:155-157 | with the initial filter and at least two impulse-response taps, the filter runs and the speaker output equals the clipped amplified microphone sample |
| Simulation.Step | test_howling_suppression.py:133-162 | the microphone takes input plus feedback; the detection side advances as `Advanced` says, the filter side as `Filtered` says on the cascade after any redesign; the output slot is at most the current sample; the invariant is kept |
| Simulation.Advance | test_howling_suppression.py:134-151 | the sample enters the frame at the position; at a full frame `FrameEnded` holds, otherwise only frame, position and sample index move and nothing is detected |
| Simulation.EndOfFrame | test_howling_suppression.py:137-151 | the frame keeps its second half, the position becomes `len2`, the frame index advances by 1, the current column is marked for the frame's spectrum, the detection result is the screened IPMP list, and the cascade follows `Redesigned` |
| Simulation.UpdateCascade | test_howling_suppression.py:141-147 | the cascade changes only when the result is non-empty and differs in length or in some frequency; otherwise it is kept and the output slot is the current sample |
| Simulation.Redesign | test_howling_suppression.py:142-147 | the notch frequencies are the detected bins' frequencies, the transfer function is `Sos2Tf` of one section per frequency, and the output slot becomes the last section's index, before the current sample |
| Simulation.Filter | test_howling_suppression.py:153-162 | the clipped value enters `x2`; when the filter fits, the clipped difference-equation output enters `x3` and the feedback is `x3` weighted by the impulse response; otherwise `x3` and the feedback stay |
| Simulation.Run | test_howling_suppression.py:120-162 | all samples are processed and the detector ran once per frame boundary (`Nframes + 1` times for an input of at least one frame), unless the filter in force does not fit the delay lines (a redesigned one, or already the initial one when the impulse response has a single tap), which stops the run; the slots of the samples the run never reached stay zero |

## Left out

- The short-time spectrum of a frame is the function `analyse` of the run's `Setup`. This covers the Hann window, its normalisation and the FFT (test_howling_suppression.py:13-14,61-62), which are floating-point numerics.
- The `log10` and `mean` arithmetic inside the criteria is left out. The spectrum carries each bin's power in dB and the average power in dB, so a ratio in dB is a difference.
- PNPR squares the complex spectrum rather than its magnitude (pyHowling/howling_detection.py:75). The model takes the dB values that PNPR compares as a separate input, `neighbourDb`.
- The design of one notch section (`scipy.signal.iirnotch`, test_howling_suppression.py:145) is the function `notch` of the `Setup`. `sos2tf` is modelled by polynomial multiplication.
- Floating point is not modelled; all arithmetic is on exact reals. This includes `floor(0.01 * Srate)`, taken as `Srate / 100` with exact integer division, and the float equality test on frequencies at :141.
- The inner products at :157 and :162 are modelled exactly. When their lengths mismatch, the source raises an error; the model returns `ok == false` and stops.
- The candidate matrix, the frame buffer and the two delay lines are sequence values reassigned each sample, not numpy arrays updated in place. The per-sample state is passed between methods as a value, not kept in a class. These buffers are separate locals in the source, so no aliasing between them is lost. The output buffer `y` is an array written in place.
- `Cascade.bins` records which bins the notch frequencies came from. The source keeps only the frequencies.
- The impulse response must have at least one tap (`MakeSetup`). With an empty one the source fails before the notch loop: the first loop's write `x2[0]` at :91 indexes an empty buffer. The notch loop would fail too, at :157, where the empty `x3[:2]` meets the two coefficients of `a[1:]`.
- Audio file I/O, plotting and the progress `print` at :148 are left out.
- pyHowling/utils.py (plotting and room simulation) is not part of this model.
- test_no_howling_detection.py is not part of this model.
- The first, filter-less feedback loop (test_howling_suppression.py:81-92) has no member of its own. Its clipping and shift are `Clip` and `Push`.
- FilterBank.Sos2Tf: its own contract states only that both polynomials are non-empty. The lengths and leading coefficients are proved in `CascadeOrder`, under non-zero leading section coefficients. The coefficient values are not related to a closed form.
- Simulation.Run: its contract states the stopping condition, the frame count and the untouched output slots. The value of each written output slot is stated per sample by `Step`, not for the whole array.

=== FILE: criteria.dfy ===
/**
 * The three per-frame howling criteria of the candidate detector. Each scans
 * the analysed bins of one frame and collects, in ascending order, the bins
 * that pass a per-bin power test.
 *
 * The logarithms are not modelled: the caller supplies, for every bin, its
 * power in dB (10·log10 of the bin's power). A ratio of powers in dB is then
 * the difference of the two dB values.
 */
module Criteria {
  import opened IndexLists

  /** Bins at the low and high edge that the neighbouring-power test never examines. */
  const EdgeBins: nat := 5

  /** Peak-to-threshold test: the bin's own power exceeds the threshold. */
  predicate PtprSelects(powerDb: seq<real>, threshold: real, i: nat)
  {
    i < |powerDb| && powerDb[i] > threshold
  }

  /** Peak-to-average test: the bin's power over the frame's average power exceeds the threshold. */
  predicate PaprSelects(powerDb: seq<real>, averageDb: real, threshold: real, i: nat)
  {
    i < |powerDb| && powerDb[i] - averageDb > threshold
  }

  /**
   * Peak-to-neighbouring test: the bin lies at least `EdgeBins` from either
   * edge and its power exceeds that of the bins 4 and 5 below and 4 and 5
   * above it, each by more than the threshold.
   */
  predicate PnprSelects(powerDb: seq<real>, threshold: real, i: nat)
  {
    EdgeBins <= i && i + EdgeBins < |powerDb|
    && powerDb[i] - powerDb[i - 4] > threshold
    && powerDb[i] - powerDb[i - 5] > threshold
    && powerDb[i] - powerDb[i + 4] > threshold
    && powerDb[i] - powerDb[i + 5] > threshold
  }

  /** PTPR: the ascending list of exactly the bins whose power exceeds `threshold`. */
  method Ptpr(powerDb: seq<real>, threshold: real) returns (ret: seq<nat>)
    ensures StrictlyIncreasing(ret)
    ensures forall i: nat :: i in ret <==> PtprSelects(powerDb, threshold, i)
  {
    ret := [];
    for i := 0 to |powerDb|
      invariant StrictlyIncreasing(ret)
      invariant forall k :: 0 <= k < |ret| ==> ret[k] < i
      invariant forall j: nat :: j in ret <==> j < i && PtprSelects(powerDb, threshold, j)
    {
      if powerDb[i] > threshold {
        ret := ret + [i];
      }
    }
  }

  /**
   * PAPR: the per-bin ratio to the average power, one entry per bin, and the
   * ascending list of exactly the bins whose ratio exceeds `threshold`.
   */
  method Papr(powerDb: seq<real>, averageDb: real, threshold: real) returns (ret: seq<nat>, ratio: seq<real>)
    ensures |ratio| == |powerDb|
    ensures forall i :: 0 <= i < |powerDb| ==> ratio[i] == powerDb[i] - averageDb
    ensures StrictlyIncreasing(ret)
    ensures forall i: nat :: i in ret <==> i < |ratio| && ratio[i] > threshold
    ensures forall i: nat :: i in ret <==> PaprSelects(powerDb, averageDb, threshold, i)
  {
    var papr := new real[|powerDb|](_ => 0.0);
    ret := [];
    for i := 0 to |powerDb|
      invariant StrictlyIncreasing(ret)
      invariant forall k :: 0 <= k < |ret| ==> ret[k] < i
      invariant forall j :: 0 <= j < i ==> papr[j] == powerDb[j] - averageDb
      invariant forall j: nat :: j in ret <==> j < i && papr[j] > threshold
    {
      papr[i] := powerDb[i] - averageDb;
      if papr[i] > threshold {
        ret := ret + [i];
      }
    }
    ratio := papr[..];
  }

  /**
   * PNPR: the ascending list of exactly the bins that pass the neighbouring
   * test; the first and last `EdgeBins` bins are never examined.
   */
  method Pnpr(powerDb: seq<real>, threshold: real) returns (ret: seq<nat>)
    ensures StrictlyIncreasing(ret)
    ensures forall i: nat :: i in ret <==> PnprSelects(powerDb, threshold, i)
    ensures forall k :: 0 <= k < |ret| ==> EdgeBins <= ret[k] && ret[k] + EdgeBins < |powerDb|
    ensures |powerDb| <= 2 * EdgeBins ==> ret == []
  {
    ret := [];
    var i := EdgeBins;
    while i < |powerDb| - EdgeBins
      invariant EdgeBins <= i
      invariant StrictlyIncreasing(ret)
      invariant forall k :: 0 <= k < |ret| ==> ret[k] < i
      invariant forall j: nat :: j in ret <==> j < i && PnprSelects(powerDb, threshold, j)
    {
      if powerDb[i] - powerDb[i - 4] > threshold
        && powerDb[i] - powerDb[i - 5] > threshold
        && powerDb[i] - powerDb[i + 4] > threshold
        && powerDb[i] - powerDb[i + 5] > threshold
      {
        ret := ret + [i];
      }
      i := i + 1;
    }
    forall k | 0 <= k < |ret|
      ensures EdgeBins <= ret[k] && ret[k] + EdgeBins < |powerDb|
    {
      assert ret[k] in ret;
    }
    assert ret != [] ==> EdgeBins <= ret[0] && ret[0] + EdgeBins < |powerDb|;
  }
}

=== FILE: detector.dfy ===
/**
 * One frame of howling detection: the three criteria over the analysed half
 * of the spectrum, their intersection, the marking of the candidate matrix
 * at the current frame, the persistence test and the screener.
 */
module Detector {
  import opened IndexLists
  import opened Criteria
  import opened Persistence
  import opened Screener

  const PtprThresholdDb: real := 10.0
  const PaprThresholdDb: real := 10.0
  const PnprThresholdDb: real := 15.0

  /**
   * What the detector needs of one frame's spectrum, one entry per FFT bin:
   * the power in dB used by PTPR and PAPR, the dB values compared by PNPR,
   * and the magnitude compared by the screener; plus the average power of
   * the analysed bins in dB.
   */
  datatype Spectrum = Spectrum(powerDb: seq<real>, averageDb: real, neighbourDb: seq<real>, magnitude: seq<real>)

  /** The spectrum has `nfft` bins, of which the first `slen` are analysed. */
  predicate Conforms(s: Spectrum, slen: nat, nfft: nat)
  {
    slen <= nfft && |s.powerDb| == nfft && |s.neighbourDb| == nfft && |s.magnitude| == nfft
  }

  /** Bin `f` passes all three criteria over the first `slen` bins. */
  predicate IsCandidate(s: Spectrum, slen: nat, f: nat)
  {
    && slen <= |s.powerDb| && slen <= |s.neighbourDb|
    && PtprSelects(s.powerDb[..slen], PtprThresholdDb, f)
    && PaprSelects(s.powerDb[..slen], s.averageDb, PaprThresholdDb, f)
    && PnprSelects(s.neighbourDb[..slen], PnprThresholdDb, f)
  }

  /** Every row of the candidate matrix has `ncols` cells, one per frame. */
  predicate Rectangular(m: seq<seq<int>>, ncols: nat)
  {
    forall f :: 0 <= f < |m| ==> |m[f]| == ncols
  }

  /**
   * Every cell is 0 or 1, and only bins that PNPR can select (at least
   * `EdgeBins` from either edge of the analysed range) are ever marked.
   */
  predicate MarksGuarded(m: seq<seq<int>>, slen: nat)
  {
    forall f, t :: 0 <= f < |m| && 0 <= t < |m[f]| ==>
      m[f][t] == 0 || (m[f][t] == 1 && EdgeBins <= f && f + EdgeBins < slen)
  }

  /**
   * Matrix `m` is `m0` with column `frameId` set to 1 in the rows of the
   * bins that pass all three criteria on spectrum `s`.
   */
  predicate MarksFrame(m: seq<seq<int>>, m0: seq<seq<int>>, s: Spectrum, slen: nat, frameId: nat)
  {
    && |m| == |m0|
    && forall f :: 0 <= f < |m| ==>
         && |m[f]| == |m0[f]|
         && forall t :: 0 <= t < |m[f]| ==> m[f][t] == if t == frameId && IsCandidate(s, slen, f) then 1 else m0[f][t]
  }

  /** Sets column `frameId` to 1 in the rows listed in `idxs`; nothing else changes. */
  method Mark(candidates: seq<seq<int>>, idxs: seq<nat>, frameId: nat) returns (m: seq<seq<int>>)
    requires forall k :: 0 <= k < |idxs| ==> idxs[k] < |candidates|
    requires forall f :: 0 <= f < |candidates| ==> frameId < |candidates[f]|
    ensures |m| == |candidates|
    ensures forall f :: 0 <= f < |m| ==>
              && |m[f]| == |candidates[f]|
              && forall t :: 0 <= t < |m[f]| ==> m[f][t] == if t == frameId && f in idxs then 1 else candidates[f][t]
  {
    m := candidates;
    for k := 0 to |idxs|
      invariant |m| == |candidates|
      invariant forall f :: 0 <= f < |m| ==>
                  && |m[f]| == |candidates[f]|
                  && forall t :: 0 <= t < |m[f]| ==> m[f][t] == if t == frameId && f in idxs[..k] then 1 else candidates[f][t]
    {
      m := m[idxs[k] := m[idxs[k]][frameId := 1]];
      assert idxs[..k + 1] == idxs[..k] + [idxs[k]];
    }
    assert idxs[..|idxs|] == idxs;
  }

  /**
   * Detection for frame `frameId`: marks exactly the bins that pass all
   * three criteria in that frame's column, then returns the screened list
   * of bins that the persistence test confirms on the updated matrix,
   * together with the updated matrix.
   */
  method HowlingDetect(spec: Spectrum, slen: nat, candidates: seq<seq<int>>, frameId: nat)
    returns (result: seq<nat>, marked: seq<seq<int>>)
    requires slen <= |spec.powerDb| && slen <= |spec.neighbourDb| && slen <= |spec.magnitude|
    requires |candidates| == slen && forall f :: 0 <= f < slen ==> frameId < |candidates[f]|
    requires MarksGuarded(candidates, slen)
    ensures MarksFrame(marked, candidates, spec, slen, frameId)
    ensures MarksGuarded(marked, slen)
    ensures InSpectrum(spec.magnitude, Ipmp(marked, frameId))
    ensures result == Screen(spec.magnitude, Ipmp(marked, frameId))
    ensures StrictlyIncreasing(result) && Spaced(result, MergeRadius)
    ensures forall k :: 0 <= k < |result| ==> EdgeBins <= result[k] && result[k] + EdgeBins < slen
  {
    var ptprIdx := Ptpr(spec.powerDb[..slen], PtprThresholdDb);
    var paprIdx, papr := Papr(spec.powerDb[..slen], spec.averageDb, PaprThresholdDb);
    var pnprIdx := Pnpr(spec.neighbourDb[..slen], PnprThresholdDb);
    var intersection := Intersect(ptprIdx, Intersect(paprIdx, pnprIdx));
    assert forall f: nat :: f in intersection <==> IsCandidate(spec, slen, f);
    forall k | 0 <= k < |intersection|
      ensures intersection[k] < slen
    {
      assert intersection[k] in ptprIdx;
    }
    marked := Mark(candidates, intersection, frameId);
    assert MarksGuarded(marked, slen) by {
      forall f, t | 0 <= f < |marked| && 0 <= t < |marked[f]|
        ensures marked[f][t] == 0 || (marked[f][t] == 1 && EdgeBins <= f && f + EdgeBins < slen)
      {
        if t == frameId && f in intersection {
          assert IsCandidate(spec, slen, f);
        }
      }
    }
    var confirmed := Ipmp(marked, frameId);
    ConfirmedAreGuarded(marked, slen, frameId);
    result := Screening(spec.magnitude, confirmed);
    ScreenSpaced(spec.magnitude, confirmed);
    forall k | 0 <= k < |result|
      ensures EdgeBins <= result[k] && result[k] + EdgeBins < slen
    {
      assert result[k] in confirmed;
    }
  }

  /** A row with no marks has a zero windowed sum. */
  lemma {:induction false} UnmarkedRowSumsToZero(s: seq<int>)
    requires forall k :: 0 <= k < |s| ==> s[k] == 0
    ensures Sum(s) == 0
  {
    if s != [] {
      UnmarkedRowSumsToZero(s[1..]);
    }
  }

  /** On a guarded matrix every confirmed bin lies at least `EdgeBins` from either edge. */
  lemma ConfirmedAreGuarded(m: seq<seq<int>>, slen: nat, index: int)
    requires MarksGuarded(m, slen)
    ensures forall k :: 0 <= k < |Ipmp(m, index)| ==>
              EdgeBins <= Ipmp(m, index)[k] && Ipmp(m, index)[k] + EdgeBins < slen
  {
    var r := Ipmp(m, index);
    forall k | 0 <= k < |r|
      ensures EdgeBins <= r[k] && r[k] + EdgeBins < slen
    {
      var f := r[k];
      assert f in r;
      if !(EdgeBins <= f && f + EdgeBins < slen) {
        var w := Window(|m[f]|, index);
        UnmarkedRowSumsToZero(m[f][w.0..w.1]);
      }
    }
  }
}

=== FILE: feedback_loop.dfy ===
/**
 * The feedback-loop simulator with adaptive notch filtering. Each sample
 * enters the microphone together with the room's feedback, is accumulated
 * into the analysis frame, amplified, clipped, filtered by the current
 * notch cascade, clipped again, and fed back through the room impulse
 * response. Every time the frame fills, the detector runs on it and the
 * notch cascade is redesigned when the detected bins changed.
 *
 * This module holds the run's parameters, the loop variables as values
 * (`Setup`, `State`), their invariants and the relations that one sample
 * establishes between them; the module `Simulation` performs the loop.
 *
 * The short-time spectrum of a frame (windowing and FFT) and the design of
 * one notch section are foreign computations; they enter as the functions
 * `analyse` and `notch` of the run's `Setup`.
 */
module FeedbackLoop {
  import opened IndexLists
  import opened Criteria
  import opened Persistence
  import opened Screener
  import opened FilterBank
  import opened Detector

  /** Frames are 1/100 s long. */
  const FramesPerSecond: nat := 100
  /** Overlap between consecutive frames, in percent of the frame length. */
  const OverlapPercent: nat := 50
  /** At most this many taps of the room impulse response are used. */
  const MaxImpulseTaps: nat := 2000
  /** Length of the delay line holding the amplified input of the notch filter. */
  const InputDelayLength: nat := 100

  datatype Result<T, E> = Success(value: T) | Failure(error: E)

  /** Frame length, overlap, hop, FFT size and frame count of one run. */
  datatype Params = Params(srate: nat, slen: nat, len1: nat, len2: nat, nfft: nat, nframes: int)

  datatype ConfigError =
    | EmptyHop            // the frame is empty, so the frame count divides by a zero hop
    | NegativeFrameCount  // the input is shorter than one hop: the candidate matrix would have a negative width

  /** The frame parameters the loop relies on. */
  predicate WellFormed(p: Params)
  {
    && 0 < p.srate && 0 < p.len2
    && p.slen % 2 == 0 && p.len1 + p.len2 == p.slen && p.len1 == p.len2
    && p.nfft == 2 * p.slen
    && 0 <= p.nframes + 1
  }

  /**
   * Derives the frame parameters from the sample rate and the number of
   * input samples: the frame length rounded up to an even number of
   * samples, half of it as overlap, the rest as hop, an FFT twice the frame
   * length, and the frame count.
   */
  function Configure(srate: nat, samples: nat): (r: Result<Params, ConfigError>)
    ensures r.Success? ==> WellFormed(r.value) && r.value.srate == srate
    ensures r.Success? ==> r.value.slen == srate / FramesPerSecond || r.value.slen == srate / FramesPerSecond + 1
    ensures r.Success? ==> r.value.len2 == r.value.slen / 2
    ensures r == Failure(EmptyHop) <==> srate < FramesPerSecond
    ensures r == Failure(NegativeFrameCount) <==>
              FramesPerSecond <= srate && samples < (srate / FramesPerSecond + 1) / 2
    ensures r.Success? ==> r.value.nframes == samples / r.value.len2 - 2
  {
    var slen0 := srate / FramesPerSecond;
    var slen := if slen0 % 2 == 1 then slen0 + 1 else slen0;
    var len1 := slen * OverlapPercent / 100;
    HalfOfEvenFrame(slen);
    var len2 := slen - len1;
    assert len2 == (srate / FramesPerSecond + 1) / 2;
    if len2 == 0 then Failure(EmptyHop)
    else
      var nframes := samples / len2 - slen / len2;
      TwoHopsPerFrame(len2);
      BelowOneHop(samples, len2);
      if nframes + 1 < 0 then Failure(NegativeFrameCount)
      else Success(Params(srate, slen, len1, len2, 2 * slen, nframes))
  }

  lemma HalfOfEvenFrame(slen: nat)
    requires slen % 2 == 0
    ensures slen * OverlapPercent / 100 == slen / 2
  {
    var h := slen / 2;
    assert slen * OverlapPercent == 100 * h;
  }

  lemma TwoHopsPerFrame(len2: nat)
    requires 0 < len2
    ensures (2 * len2) / len2 == 2
  {
  }

  lemma BelowOneHop(n: nat, len2: nat)
    requires 0 < len2
    ensures n / len2 < 1 <==> n < len2
  {
  }

  /**
   * The frame position and frame index after `n` samples: each sample
   * advances the position; when the frame is full the detector runs, the
   * position falls back to `len2` and the frame index advances by one.
   */
  function Counters(n: nat, slen: nat, len2: nat): (c: (nat, nat))
  {
    if n == 0 then (0, 0)
    else
      var prev := Counters(n - 1, slen, len2);
      if prev.0 + 1 == slen then (len2, prev.1 + 1) else (prev.0 + 1, prev.1)
  }

  /** The samples covered by `k` hops of `len2` samples. */
  function Hops(k: nat, len2: nat): nat
  {
    if k == 0 then 0 else Hops(k - 1, len2) + len2
  }

  lemma {:induction false} HopsIsProduct(k: nat, len2: nat)
    ensures Hops(k, len2) == k * len2
  {
    if k > 0 {
      HopsIsProduct(k - 1, len2);
      assert k * len2 == (k - 1) * len2 + len2;
    }
  }

  /**
   * The counters `pos` and `frameId` are where they should be after `n`
   * samples: the position lies inside the frame, the samples seen are the
   * position plus one hop per completed frame, and once a frame has been
   * completed the position never falls below one hop.
   */
  predicate Progress(n: nat, pos: nat, frameId: nat, p: Params)
  {
    pos < p.slen && pos <= n && n == pos + Hops(frameId, p.len2) && (0 < frameId ==> p.len2 <= pos)
  }

  /** The counters of `Counters` make progress as `Progress` describes. */
  lemma {:induction false} CountersMakeProgress(n: nat, p: Params)
    requires WellFormed(p)
    ensures var c := Counters(n, p.slen, p.len2);
            Progress(n, c.0, c.1, p) && (c.1 == 0 <==> n < p.slen)
  {
    if n > 0 {
      CountersMakeProgress(n - 1, p);
    }
  }

  /** `Progress` pins the counters down: only the values of `Counters` satisfy it. */
  lemma ProgressDeterminesCounters(n: nat, pos: nat, frameId: nat, p: Params)
    requires WellFormed(p) && Progress(n, pos, frameId, p)
    ensures (pos, frameId) == Counters(n, p.slen, p.len2)
  {
    CountersMakeProgress(n, p);
    var c := Counters(n, p.slen, p.len2);
    HopsIsProduct(frameId, p.len2);
    HopsIsProduct(c.1, p.len2);
    if frameId == 0 || c.1 == 0 {
      if frameId > 0 {
        MulIsMonotone(1, frameId, p.len2);
      }
      if c.1 > 0 {
        MulIsMonotone(1, c.1, p.len2);
      }
    } else {
      assert n == (frameId + 1) * p.len2 + (pos - p.len2);
      assert n == (c.1 + 1) * p.len2 + (c.0 - p.len2);
      DivisionOfSplit(n, frameId + 1, pos - p.len2, p.len2);
      DivisionOfSplit(n, c.1 + 1, c.0 - p.len2, p.len2);
    }
  }

  /** One more sample advances the counters by one step, wrapping at the end of the frame. */
  lemma ProgressStep(n: nat, pos: nat, frameId: nat, p: Params)
    requires WellFormed(p) && Progress(n, pos, frameId, p)
    ensures if pos + 1 == p.slen then Progress(n + 1, p.len2, frameId + 1, p)
            else Progress(n + 1, pos + 1, frameId, p)
  {
  }

  /**
   * An input of at least one frame reaches exactly `nframes + 1` frame
   * boundaries, where `nframes` is the source's frame count.
   */
  lemma FrameCount(n: nat, p: Params)
    requires WellFormed(p) && p.slen <= n
    ensures Counters(n, p.slen, p.len2).1 == n / p.len2 - p.slen / p.len2 + 1
  {
    CountersMakeProgress(n, p);
    var c := Counters(n, p.slen, p.len2);
    HopsIsProduct(c.1, p.len2);
    var r := c.0 - p.len2;
    assert n == (c.1 + 1) * p.len2 + r && 0 <= r < p.len2;
    DivisionOfSplit(n, c.1 + 1, r, p.len2);
    TwoHopsPerFrame(p.len2);
  }

  lemma MulIsMonotone(x: int, y: int, d: int)
    requires x <= y && 0 <= d
    ensures x * d <= y * d
  {
    assert y * d - x * d == (y - x) * d;
  }

  lemma QuotientBound(a: int, b: int, d: int)
    requires d > 0 && a * d < b * d + d
    ensures a <= b
  {
    if a > b {
      MulIsMonotone(b + 1, a, d);
      assert false;
    }
  }

  lemma DivisionOfSplit(n: nat, q: nat, r: nat, d: nat)
    requires 0 < d && r < d && n == q * d + r
    ensures n / d == q
  {
    var q' := n / d;
    assert n == q' * d + n % d;
    QuotientBound(q', q, d);
    QuotientBound(q, q', d);
  }

  /**
   * A frame boundary reached while processing sample `n` of `total` uses a
   * frame index below `nframes + 1`: the write into the candidate matrix
   * stays inside its columns.
   */
  lemma BoundaryWithinColumns(n: nat, total: nat, pos: nat, frameId: nat, p: Params)
    requires WellFormed(p) && p.nframes == total / p.len2 - 2 && n < total
    requires Progress(n, pos, frameId, p) && pos + 1 == p.slen
    ensures frameId < p.nframes + 1
  {
    var q := total / p.len2;
    HopsIsProduct(frameId, p.len2);
    assert total == q * p.len2 + total % p.len2;
    assert (frameId + 2) * p.len2 == frameId * p.len2 + p.slen;
    QuotientBound(frameId + 2, q, p.len2);
  }

  /** Gain from the microphone to the speaker. */
  const Gain: real := 0.2

  /** Every listed bin has a point on the frequency axis. */
  predicate OnAxis(ids: seq<nat>, freqs: seq<real>)
  {
    forall k :: 0 <= k < |ids| ==> ids[k] < |freqs|
  }

  /**
   * The detector asks for a new cascade when it found bins and their
   * frequencies differ from the notch frequencies in force, in number or in
   * value.
   */
  predicate NeedsRedesign(detected: seq<nat>, notchFreqs: seq<real>, freqs: seq<real>)
    requires OnAxis(detected, freqs)
  {
    |detected| > 0 && (|detected| != |notchFreqs| || notchFreqs != Pick(freqs, detected))
  }

  /** The length test of the gate only short-cuts the comparison of the frequencies. */
  lemma GateComparesFrequencies(detected: seq<nat>, notchFreqs: seq<real>, freqs: seq<real>)
    requires OnAxis(detected, freqs)
    ensures NeedsRedesign(detected, notchFreqs, freqs) <==> detected != [] && notchFreqs != Pick(freqs, detected)
  {
  }

  /**
   * On an ascending frequency axis comparing frequencies compares bins: the
   * cascade is redesigned exactly when the detector found bins and they are
   * not the bins in force.
   */
  lemma RedesignIffBinsChange(detected: seq<nat>, bins: seq<nat>, freqs: seq<real>)
    requires Ascending(freqs) && OnAxis(detected, freqs) && OnAxis(bins, freqs)
    ensures NeedsRedesign(detected, Pick(freqs, bins), freqs) <==> detected != [] && detected != bins
  {
    PickInjective(freqs, detected, bins);
  }

  /**
   * The detected bins are spaced `MergeRadius` apart inside the guarded
   * range, so there are few of them: fewer than a third of the analysed bins.
   */
  lemma DetectedCountBound(r: seq<nat>, slen: nat)
    requires Spaced(r, MergeRadius)
    requires forall k :: 0 <= k < |r| ==> EdgeBins <= r[k] && r[k] + EdgeBins < slen
    ensures r != [] ==> (|r| - 1) * MergeRadius + 2 * EdgeBins < slen
  {
    if r != [] {
      SpacedSpan(r, MergeRadius);
    }
  }

  /**
   * A cascade of notch sections fits the delay lines exactly when its
   * numerator, of two coefficients per section plus one, fits the input delay
   * line and its denominator's two coefficients per section fit the output
   * delay line.
   */
  lemma NotchCascadeFits(sos: seq<seq<real>>, outputLen: nat)
    requires SosShaped(sos) && LeadingNonZero(sos)
    ensures FitsDelayLines(Sos2Tf(sos).0, Sos2Tf(sos).1, InputDelayLength, outputLen) <==>
              2 * |sos| + 1 <= InputDelayLength && 2 * |sos| <= outputLen
  {
    CascadeOrder(sos);
  }

  /**
   * What stays fixed for one run: the frame parameters, the clean input, the
   * room impulse response limited to `MaxImpulseTaps` taps, the frequency
   * axis in Hz of the FFT bins, and the two foreign computations: the
   * short-time spectrum of a frame (window and FFT) and the design of one
   * notch section for a frequency in Hz.
   */
  datatype Setup = Setup(p: Params, x: seq<real>, rir: seq<real>, freqs: seq<real>,
                         analyse: seq<real> -> Spectrum, notch: real -> Biquad)

  /**
   * The notch cascade in force: its notch frequencies and its transfer
   * function `b`, `a`. `bins` names the bins whose frequencies are the notch
   * frequencies.
   */
  datatype Cascade = Cascade(bins: seq<nat>, notchFreqs: seq<real>, b: seq<real>, a: seq<real>)

  /**
   * The detection side of the loop variables: the index of the next input
   * sample, the position in the frame, the frame index, the analysis frame,
   * the candidate matrix (one row per analysed bin, one column per frame),
   * and the cascade in force.
   */
  datatype Detection = Detection(next: nat, pos: nat, frameId: nat, frame: seq<real>, candidates: seq<seq<int>>,
                                 cascade: Cascade)

  /**
   * The filter side: the delay lines of the notch filter's input (`x2`) and
   * output (`x3`), and the feedback `y1` reaching the microphone with the
   * next sample.
   */
  datatype Delays = Delays(x2: seq<real>, x3: seq<real>, y1: real)

  /** The loop variables between two samples. */
  datatype State = State(det: Detection, delays: Delays)

  /** The run's parameters come from its sample rate and input length, and every spectrum has `nfft` bins. */
  ghost predicate Shaped(e: Setup)
  {
    && Configure(e.p.srate, |e.x|) == Success(e.p)
    && 1 <= |e.rir| <= MaxImpulseTaps
    && (forall s :: Conforms(e.analyse(s), e.p.slen, e.p.nfft))
    && |e.freqs| == e.p.nfft
  }

  /**
   * Builds the setup of a run: the derived parameters, the first
   * `MaxImpulseTaps` taps of the impulse response, and the frequency axis.
   */
  function MakeSetup(srate: nat, x: seq<real>, rirIn: seq<real>, analyse: seq<real> -> Spectrum, notch: real -> Biquad): (e: Setup)
    requires Configure(srate, |x|).Success? && 1 <= |rirIn|
    requires forall s :: Conforms(analyse(s), Configure(srate, |x|).value.slen, Configure(srate, |x|).value.nfft)
    ensures Shaped(e) && e.p == Configure(srate, |x|).value && e.x == x
    ensures e.rir == rirIn[..if |rirIn| < MaxImpulseTaps then |rirIn| else MaxImpulseTaps]
    ensures e.freqs == Linspace(srate, e.p.nfft)
  {
    var p := Configure(srate, |x|).value;
    Setup(p, x, rirIn[..if |rirIn| < MaxImpulseTaps then |rirIn| else MaxImpulseTaps],
          Linspace(srate, p.nfft), analyse, notch)
  }

  /** The notches in force sit on spaced bins inside the guarded range, and no notches means the pass-through filter. */
  ghost predicate NotchesValid(e: Setup, c: Cascade)
  {
    && OnAxis(c.bins, e.freqs)
    && (forall k :: 0 <= k < |c.bins| ==> EdgeBins <= c.bins[k] && c.bins[k] + EdgeBins < e.p.slen)
    && c.notchFreqs == Pick(e.freqs, c.bins)
    && Spaced(c.bins, MergeRadius)
    && (c.bins == [] ==> c.b == InitialNumerator && c.a == InitialDenominator)
  }

  /** What holds of the detection side between two samples. */
  ghost predicate DetectionInv(e: Setup, d: Detection)
  {
    && WellFormed(e.p)
    && |d.frame| == e.p.slen
    && d.next <= |e.x|
    && Progress(d.next, d.pos, d.frameId, e.p)
    && NotchesValid(e, d.cascade)
    && |d.candidates| == e.p.slen && Rectangular(d.candidates, e.p.nframes + 1)
    && MarksGuarded(d.candidates, e.p.slen)
  }

  /** The delay lines keep their lengths. */
  predicate DelaysInv(e: Setup, l: Delays)
  {
    |l.x2| == InputDelayLength && |l.x3| == |e.rir|
  }

  ghost predicate Inv(e: Setup, s: State)
  {
    DetectionInv(e, s.det) && DelaysInv(e, s.delays)
  }

  /** The loop variables before the first sample: zeroed buffers and matrix, the pass-through filter, no notches. */
  function Initial(e: Setup): (s: State)
    requires Shaped(e)
    ensures Inv(e, s) && s.det.next == 0
    ensures s.det.frame == Zeros(e.p.slen) && s.delays.x2 == Zeros(InputDelayLength) && s.delays.x3 == Zeros(|e.rir|)
    ensures forall f, t :: 0 <= f < |s.det.candidates| && 0 <= t < |s.det.candidates[f]| ==> s.det.candidates[f][t] == 0
    ensures s.det.cascade == Cascade([], [], InitialNumerator, InitialDenominator) && s.delays.y1 == 0.0
  {
    State(Detection(0, 0, 0, Zeros(e.p.slen), seq(e.p.slen, _ => seq(e.p.nframes + 1, _ => 0)),
                    Cascade([], [], InitialNumerator, InitialDenominator)),
          Delays(Zeros(InputDelayLength), Zeros(|e.rir|), 0.0))
  }

  /**
   * The cascade after the detector returned `detected` at sample `sample`:
   * redesigned for the detected bins' frequencies when they differ from the
   * notch frequencies of `c`, with the output slot moved back to the last
   * section's index; otherwise `c` unchanged, with the current sample as the
   * output slot.
   */
  ghost predicate Redesigned(e: Setup, c: Cascade, c': Cascade, detected: seq<nat>, sample: nat, written: nat)
  {
    && OnAxis(detected, e.freqs)
    && (NeedsRedesign(detected, c.notchFreqs, e.freqs) ==>
          && c'.bins == detected
          && c'.notchFreqs == Pick(e.freqs, detected)
          && (c'.b, c'.a) == Sos2Tf(Sections(c'.notchFreqs, e.notch))
          && written == |detected| - 1 && written < sample)
    && (!NeedsRedesign(detected, c.notchFreqs, e.freqs) ==> c' == c && written == sample)
  }

  /**
   * The end of a frame: the filled frame `f` keeps its second half, the
   * position falls back to one hop, the frame index advances, the bins
   * passing the three criteria on the spectrum of `f` are marked in the
   * current column, the detector returns the screened confirmed bins, and
   * the cascade follows `Redesigned`.
   */
  ghost predicate FrameEnded(e: Setup, d: Detection, f: seq<real>, d': Detection, detected: seq<nat>, written: nat)
    requires WellFormed(e.p) && |f| == e.p.slen
  {
    && d'.next == d.next + 1
    && d'.frame == f[e.p.len2..] + f[e.p.slen - e.p.len2..]
    && d'.pos == e.p.len2 && d'.frameId == d.frameId + 1
    && MarksFrame(d'.candidates, d.candidates, e.analyse(f), e.p.slen, d.frameId)
    && InSpectrum(e.analyse(f).magnitude, Ipmp(d'.candidates, d.frameId))
    && detected == Screen(e.analyse(f).magnitude, Ipmp(d'.candidates, d.frameId))
    && Redesigned(e, d.cascade, d'.cascade, detected, d.next, written)
  }

  /**
   * The detection side after microphone sample `x1` entered the frame: at
   * the end of the frame as `FrameEnded` says; otherwise only the frame,
   * the position and the sample index move, nothing is detected and the
   * output slot is the current sample.
   */
  ghost predicate Advanced(e: Setup, d: Detection, x1: real, d': Detection, detected: seq<nat>, written: nat)
    requires WellFormed(e.p) && |d.frame| == e.p.slen && d.pos < e.p.slen
  {
    var f := d.frame[d.pos := x1];
    if d.pos + 1 == e.p.slen then FrameEnded(e, d, f, d', detected, written)
    else d' == d.(next := d.next + 1, pos := d.pos + 1, frame := f) && detected == [] && written == d.next
  }

  /**
   * One sample through the notch filter `b`, `a`: `v` enters the input
   * delay line and, when the orders fit the delay lines, the difference
   * equation gives the clipped output `out`, which enters the output delay
   * line, and the feedback is the output delay line weighted by the room
   * impulse response. When they do not fit, the output delay line and the
   * feedback stay.
   */
  predicate Filtered(e: Setup, l: Delays, v: real, b: seq<real>, a: seq<real>, l': Delays, ok: bool, out: real)
    requires DelaysInv(e, l) && 1 <= |e.rir|
  {
    && l'.x2 == Push(l.x2, v)
    && ok == FitsDelayLines(b, a, InputDelayLength, |e.rir|)
    && (ok ==> && out == Clip(IirOutput(l'.x2, l.x3, b, a))
               && l'.x3 == Push(l.x3, out)
               && l'.y1 == Dot(l'.x3, e.rir))
    && (!ok ==> l'.x3 == l.x3 && l'.y1 == l.y1)
  }

  /**
   * Until the first redesign the loop passes the clipped, amplified
   * microphone sample straight to the speaker: with the initial cascade and
   * an impulse response of at least two taps the filter runs and its output
   * is its input.
   */
  lemma PassThroughBeforeRedesign(e: Setup, l: Delays, v: real, l': Delays, ok: bool, out: real)
    requires DelaysInv(e, l) && 2 <= |e.rir| && -ClipLimit <= v <= ClipLimit
    requires Filtered(e, l, v, InitialNumerator, InitialDenominator, l', ok, out)
    ensures ok && out == v && l'.x3 == Push(l.x3, v)
  {
    InitialFilterPassesThrough(l'.x2, l.x3);
  }

  /**
   * On the run's frequency axis every notch in force lies strictly between
   * 0 Hz and half the sample rate, the range in which a notch section can be
   * designed: its bin is at least `EdgeBins` above 0 and below `slen`, which
   * is half of `nfft`.
   */
  lemma NotchesInsideBand(e: Setup, c: Cascade)
    requires WellFormed(e.p) && e.freqs == Linspace(e.p.srate, e.p.nfft) && NotchesValid(e, c)
    ensures forall k :: 0 <= k < |c.notchFreqs| ==> 0.0 < c.notchFreqs[k] < (e.p.srate as real) / 2.0
  {
    forall k | 0 <= k < |c.notchFreqs|
      ensures 0.0 < c.notchFreqs[k] < (e.p.srate as real) / 2.0
    {
      BinBelowNyquist(e.p.srate, e.p.nfft, c.bins[k]);
    }
  }
}

=== FILE: filter_bank.dfy ===
/**
 * The notch filter bank and the arithmetic of the sample loop: amplitude
 * clipping, the IIR difference equation, the reduction of second-order
 * sections to one transfer function, and the mapping of FFT bins to Hz.
 *
 * Arithmetic is over exact reals; floating-point rounding is not modelled.
 * The design of one notch section is foreign and enters as a function
 * supplied by the caller.
 */
module FilterBank {

  /** Samples are clipped to [-ClipLimit, ClipLimit]. */
  const ClipLimit: real := 2.0

  /** The filter in force before the first redesign. */
  const InitialNumerator: seq<real> := [1.0, 0.0, 0.0]
  const InitialDenominator: seq<real> := [0.0, 0.0, 0.0]

  /** Amplitude clipping: first the upper bound, then the lower bound. */
  function Clip(v: real): (r: real)
    ensures -ClipLimit <= r <= ClipLimit
    ensures -ClipLimit <= v <= ClipLimit ==> r == v
    ensures v > ClipLimit ==> r == ClipLimit
    ensures v < -ClipLimit ==> r == -ClipLimit
  {
    var upper := if ClipLimit < v then ClipLimit else v;
    if -ClipLimit > upper then -ClipLimit else upper
  }

  /**
   * A delay line taking a new sample: the sample lands in slot 0, every
   * other slot takes its predecessor's value, and the oldest value drops out.
   */
  function Push(line: seq<real>, v: real): (r: seq<real>)
    requires 1 <= |line|
    ensures |r| == |line| && r[0] == v
    ensures forall k :: 1 <= k < |r| ==> r[k] == line[k - 1]
  {
    [v] + line[..|line| - 1]
  }

  /** Inner product of two vectors of equal length. */
  function Dot(u: seq<real>, v: seq<real>): real
    requires |u| == |v|
  {
    if u == [] then 0.0 else u[0] * v[0] + Dot(u[1..], v[1..])
  }

  /** The filter's orders fit the input and output delay lines, so the difference equation is defined. */
  predicate FitsDelayLines(b: seq<real>, a: seq<real>, inputLen: nat, outputLen: nat)
  {
    |b| <= inputLen && 1 <= |a| && |a| - 1 <= outputLen
  }

  /**
   * The difference equation: the numerator over the newest input samples
   * minus the denominator (without its leading coefficient) over the newest
   * output samples. Index 0 of each delay line is the newest sample.
   */
  function IirOutput(input: seq<real>, output: seq<real>, b: seq<real>, a: seq<real>): real
    requires FitsDelayLines(b, a, |input|, |output|)
  {
    Dot(input[..|b|], b) - Dot(output[..|a| - 1], a[1..])
  }

  /** With the initial coefficients the difference equation passes the newest input through. */
  lemma InitialFilterPassesThrough(input: seq<real>, output: seq<real>)
    requires 3 <= |input| && 2 <= |output|
    ensures FitsDelayLines(InitialNumerator, InitialDenominator, |input|, |output|)
    ensures IirOutput(input, output, InitialNumerator, InitialDenominator) == input[0]
  {
    var b := InitialNumerator;
    var a := InitialDenominator;
    assert Dot(input[..3][2..], b[2..]) == input[2] * 0.0;
    assert Dot(input[..3][1..], b[1..]) == input[1] * 0.0 + input[2] * 0.0;
    assert Dot(input[..3], b) == input[0];
    assert Dot(output[..2][1..], a[1..][1..]) == output[1] * 0.0;
    assert Dot(output[..2], a[1..]) == 0.0;
  }

  /** One second-order section: three numerator and three denominator coefficients. */
  datatype Biquad = Biquad(b0: real, b1: real, b2: real, a0: real, a1: real, a2: real)
  {
    /** The section as one row of the second-order-sections matrix: numerator, then denominator. */
    function Row(): (r: seq<real>)
      ensures |r| == 6 && r[..3] == [b0, b1, b2] && r[3..] == [a0, a1, a2]
    {
      [b0, b1, b2, a0, a1, a2]
    }
  }

  /** Every row holds six coefficients. */
  predicate SosShaped(sos: seq<seq<real>>)
  {
    forall k :: 0 <= k < |sos| ==> |sos[k]| == 6
  }

  /** The sections matrix for a list of notch frequencies: row `k` is the section designed for frequency `k`. */
  function Sections(freqs: seq<real>, notch: real -> Biquad): (sos: seq<seq<real>>)
    ensures |sos| == |freqs| && SosShaped(sos)
  {
    seq(|freqs|, k requires 0 <= k < |freqs| => notch(freqs[k]).Row())
  }

  /** Designs one notch section per frequency, row `k` for frequency `k`. */
  method DesignSections(freqs: seq<real>, notch: real -> Biquad) returns (sos: seq<seq<real>>)
    ensures |sos| == |freqs| && SosShaped(sos)
    ensures forall k :: 0 <= k < |freqs| ==> sos[k] == notch(freqs[k]).Row()
    ensures sos == Sections(freqs, notch)
  {
    sos := [];
    for k := 0 to |freqs|
      invariant |sos| == k && SosShaped(sos)
      invariant forall j :: 0 <= j < k ==> sos[j] == notch(freqs[j]).Row()
    {
      sos := sos + [notch(freqs[k]).Row()];
    }
  }

  /** Polynomial coefficients without their leading zeros; the zero polynomial is [0]. */
  function TrimLeadingZeros(p: seq<real>): (r: seq<real>)
    ensures 1 <= |r| <= if p == [] then 1 else |p|
    ensures p != [] && p[0] != 0.0 ==> r == p
  {
    if p == [] then [0.0]
    else if p[0] != 0.0 then p
    else if |p| == 1 then [0.0]
    else TrimLeadingZeros(p[1..])
  }

  function Zeros(n: nat): (r: seq<real>)
    ensures |r| == n && forall k :: 0 <= k < n ==> r[k] == 0.0
  {
    seq(n, _ => 0.0)
  }

  function Scale(c: real, q: seq<real>): (r: seq<real>)
    ensures |r| == |q| && forall k :: 0 <= k < |q| ==> r[k] == c * q[k]
  {
    seq(|q|, k requires 0 <= k < |q| => c * q[k])
  }

  function Add(p: seq<real>, q: seq<real>): (r: seq<real>)
    requires |p| == |q|
    ensures |r| == |p| && forall k :: 0 <= k < |p| ==> r[k] == p[k] + q[k]
  {
    seq(|p|, k requires 0 <= k < |p| => p[k] + q[k])
  }

  /**
   * Product of two polynomials given highest degree first (a discrete
   * convolution): its degree is the sum of the degrees and its leading
   * coefficient the product of the leading coefficients.
   */
  function Convolve(p: seq<real>, q: seq<real>): (r: seq<real>)
    requires 1 <= |p| && 1 <= |q|
    ensures |r| == |p| + |q| - 1
    ensures r[0] == p[0] * q[0]
  {
    if |p| == 1 then Scale(p[0], q)
    else Add(Scale(p[0], q) + Zeros(|p| - 1), [0.0] + Convolve(p[1..], q))
  }

  /** Polynomial product as the numerical library computes it: leading zeros are trimmed first. */
  function PolyMul(p: seq<real>, q: seq<real>): (r: seq<real>)
    ensures 1 <= |r|
    ensures p != [] && q != [] && p[0] != 0.0 && q[0] != 0.0 ==> r == Convolve(p, q)
    ensures p != [] && q != [] && p[0] != 0.0 && q[0] != 0.0 ==>
              |r| == |p| + |q| - 1 && r[0] == p[0] * q[0]
  {
    Convolve(TrimLeadingZeros(p), TrimLeadingZeros(q))
  }

  /**
   * Second-order sections to one transfer function: the numerator is the
   * product of the sections' numerators, the denominator the product of
   * their denominators, multiplied in row order starting from [1].
   */
  function Sos2Tf(sos: seq<seq<real>>): (ba: (seq<real>, seq<real>))
    requires SosShaped(sos)
    ensures 1 <= |ba.0| && 1 <= |ba.1|
  {
    if sos == [] then ([1.0], [1.0])
    else
      var init := Sos2Tf(sos[..|sos| - 1]);
      var row := sos[|sos| - 1];
      (PolyMul(init.0, row[..3]), PolyMul(init.1, row[3..]))
  }

  /** Every section's leading numerator and denominator coefficients are non-zero. */
  predicate LeadingNonZero(sos: seq<seq<real>>)
    requires SosShaped(sos)
  {
    forall k :: 0 <= k < |sos| ==> sos[k][0] != 0.0 && sos[k][3] != 0.0
  }

  /** A cascade of k sections with non-zero leading coefficients has order 2k: 2k+1 coefficients each. */
  lemma {:induction false} CascadeOrder(sos: seq<seq<real>>)
    requires SosShaped(sos) && LeadingNonZero(sos)
    ensures |Sos2Tf(sos).0| == 2 * |sos| + 1 && |Sos2Tf(sos).1| == 2 * |sos| + 1
    ensures Sos2Tf(sos).0[0] != 0.0 && Sos2Tf(sos).1[0] != 0.0
  {
    if sos != [] {
      var n := |sos|;
      var init := sos[..n - 1];
      assert SosShaped(init) && LeadingNonZero(init);
      CascadeOrder(init);
      var prev := Sos2Tf(init);
      var row := sos[n - 1];
      assert row[0] != 0.0 && row[3] != 0.0;
      var num := row[..3];
      var den := row[3..];
      assert |num| == 3 && num[0] == row[0];
      assert |den| == 3 && den[0] == row[3];
      assert Sos2Tf(sos) == (PolyMul(prev.0, num), PolyMul(prev.1, den));
      GrowsByOneSection(prev.0, num);
      GrowsByOneSection(prev.1, den);
    }
  }

  /** Multiplying by one section's quadratic adds two coefficients and keeps the leading one non-zero. */
  lemma GrowsByOneSection(p: seq<real>, q: seq<real>)
    requires p != [] && p[0] != 0.0 && |q| == 3 && q[0] != 0.0
    ensures |PolyMul(p, q)| == |p| + 2 && PolyMul(p, q)[0] != 0.0
  {
    NonZeroProduct(p[0], q[0]);
  }

  lemma NonZeroProduct(x: real, y: real)
    requires x != 0.0 && y != 0.0
    ensures x * y != 0.0
  {
  }

  /**
   * The centre frequency in Hz of FFT bin `k`: bins are spaced evenly from 0
   * to the sample rate over `nfft` points, so the spacing is srate/(nfft-1).
   */
  function BinToHz(srate: nat, nfft: nat, k: nat): real
    requires 2 <= nfft
  {
    (k as real) * (srate as real) / ((nfft - 1) as real)
  }

  /**
   * The frequency axis of the spectrum: `nfft` points spaced evenly from 0 Hz
   * to the sample rate, both ends included.
   */
  function Linspace(srate: nat, nfft: nat): (r: seq<real>)
    requires 2 <= nfft
    ensures |r| == nfft && r[0] == 0.0 && r[nfft - 1] == srate as real
    ensures forall k :: 0 <= k < nfft ==> r[k] == BinToHz(srate, nfft, k)
  {
    seq(nfft, k requires 0 <= k < nfft => BinToHz(srate, nfft, k))
  }

  /** Every value is smaller than every later one. */
  predicate Ascending(s: seq<real>)
  {
    forall j, k :: 0 <= j < k < |s| ==> s[j] < s[k]
  }

  /** With a positive sample rate the frequency axis is ascending. */
  lemma LinspaceAscending(srate: nat, nfft: nat)
    requires 2 <= nfft && 0 < srate
    ensures Ascending(Linspace(srate, nfft))
  {
    var r := Linspace(srate, nfft);
    forall j, k | 0 <= j < k < nfft
      ensures r[j] < r[k]
    {
      BinToHzIncreasing(srate, nfft, j, k);
    }
  }

  lemma BinToHzIncreasing(srate: nat, nfft: nat, j: nat, k: nat)
    requires 2 <= nfft && 0 < srate && j < k
    ensures BinToHz(srate, nfft, j) < BinToHz(srate, nfft, k)
  {
    var d := (nfft - 1) as real;
    var s := srate as real;
    assert (j as real) * s < (k as real) * s;
    assert (j as real) * s / d < (k as real) * s / d;
  }

  /** The values at the listed indices, in the order of the list. */
  function Pick(values: seq<real>, ids: seq<nat>): (r: seq<real>)
    requires forall k :: 0 <= k < |ids| ==> ids[k] < |values|
    ensures |r| == |ids| && forall k :: 0 <= k < |ids| ==> r[k] == values[ids[k]]
  {
    seq(|ids|, k requires 0 <= k < |ids| => values[ids[k]])
  }

  /**
   * On an ascending axis distinct indices pick distinct values, so comparing
   * the picked values compares the index lists.
   */
  lemma PickInjective(values: seq<real>, ids: seq<nat>, other: seq<nat>)
    requires Ascending(values)
    requires forall k :: 0 <= k < |ids| ==> ids[k] < |values|
    requires forall k :: 0 <= k < |other| ==> other[k] < |values|
    ensures Pick(values, ids) == Pick(values, other) <==> ids == other
  {
    var r := Pick(values, ids);
    var s := Pick(values, other);
    if r == s {
      forall k | 0 <= k < |ids|
        ensures ids[k] == other[k]
      {
        assert values[ids[k]] == r[k] == s[k] == values[other[k]];
      }
    }
  }

  /**
   * A bin strictly inside the lower half of the spectrum has a frequency
   * strictly between 0 Hz and half the sample rate, the range in which a
   * notch section can be designed.
   */
  lemma BinBelowNyquist(srate: nat, nfft: nat, k: nat)
    requires 2 <= nfft && 0 < srate
    requires 0 < k && 2 * k + 1 < nfft
    ensures 0.0 < BinToHz(srate, nfft, k) < (srate as real) / 2.0
  {
    var d := (nfft - 1) as real;
    var s := srate as real;
    var kr := k as real;
    var hz := kr * s / d;
    assert hz * d == kr * s;
    assert 2.0 * kr < d;
    assert 2.0 * kr * s < d * s;
    assert 2.0 * hz * d < s * d;
    assert 0.0 < kr * s;
  }
}

=== FILE: index_lists.dfy ===
/** Facts about lists of frequency-bin indices shared by the detection stages. */
module IndexLists {

  /** Every element is smaller than every later one (sorted, no duplicates). */
  predicate StrictlyIncreasing(s: seq<int>)
  {
    forall j, k :: 0 <= j < k < |s| ==> s[j] < s[k]
  }

  /** Consecutive elements are at least `gap` apart. */
  ghost predicate Spaced(s: seq<int>, gap: int)
  {
    forall j, k :: 0 <= j < k < |s| && k == j + 1 ==> s[j] + gap <= s[k]
  }

  /** A list whose consecutive elements are at least one apart is sorted without duplicates. */
  lemma {:induction false} SpacedIsIncreasing(s: seq<int>, gap: int)
    requires gap >= 1 && Spaced(s, gap)
    ensures StrictlyIncreasing(s)
  {
    if |s| > 1 {
      var init := s[..|s| - 1];
      assert Spaced(init, gap);
      SpacedIsIncreasing(init, gap);
      forall j | 0 <= j < |s| - 1
        ensures s[j] < s[|s| - 1]
      {
        assert init[j] <= init[|init| - 1] by {
          if j < |init| - 1 { assert init[j] < init[|init| - 1]; }
        }
      }
    }
  }

  /** The first and last elements of a spaced list are at least `gap` per step apart. */
  lemma {:induction false} SpacedSpan(s: seq<int>, gap: int)
    requires s != [] && Spaced(s, gap)
    ensures s[0] + (|s| - 1) * gap <= s[|s| - 1]
  {
    if |s| > 1 {
      var init := s[..|s| - 1];
      assert Spaced(init, gap);
      SpacedSpan(init, gap);
      assert (|s| - 1) * gap == (|init| - 1) * gap + gap;
    }
  }

  /** The elements of `xs` that also occur in `ys`, in the order of `xs`. */
  function Intersect(xs: seq<nat>, ys: seq<nat>): (r: seq<nat>)
    ensures forall v :: v in r <==> v in xs && v in ys
    ensures StrictlyIncreasing(xs) ==> StrictlyIncreasing(r)
    ensures |r| <= |xs|
  {
    if xs == [] then []
    else
      var init := Intersect(xs[..|xs| - 1], ys);
      var last := xs[|xs| - 1];
      assert xs == xs[..|xs| - 1] + [last];
      assert StrictlyIncreasing(xs) ==> forall k :: 0 <= k < |init| ==> init[k] < last by {
        if StrictlyIncreasing(xs) {
          forall k | 0 <= k < |init| ensures init[k] < last {
            assert init[k] in xs[..|xs| - 1];
          }
        }
      }
      if last in ys then init + [last] else init
  }
}

=== FILE: persistence.dfy ===
/**
 * Inter-frame peak magnitude persistence (IPMP): the temporal confirmation
 * of howling candidates. The candidate matrix has one row per frequency bin
 * and one column per frame; a cell holds 1 when the bin was a candidate in
 * that frame. A bin is confirmed when the sum of its row over a window of
 * recent frames reaches `ConfirmCount`.
 *
 * The window is taken with the slicing rules of the source language, which
 * are modelled explicitly: a negative slice bound counts from the end of
 * the row, and every bound is clipped to the row.
 */
module Persistence {
  import opened IndexLists

  /** Number of marked frames within the window needed to confirm a bin. */
  const ConfirmCount: int := 3

  /** The sum of a row segment. */
  function Sum(s: seq<int>): int
  {
    if s == [] then 0 else s[0] + Sum(s[1..])
  }

  /** Every cell is 0 or 1. */
  predicate Binary(s: seq<int>)
  {
    forall k :: 0 <= k < |s| ==> s[k] == 0 || s[k] == 1
  }

  /** A slice bound as the source language resolves it against a row of length `n`. */
  function SliceIndex(n: nat, k: int): (r: nat)
    ensures r <= n
    ensures 0 <= k <= n ==> r == k
    ensures k < 0 && 0 <= n + k ==> r == n + k
    ensures k > n ==> r == n
    ensures n + k < 0 ==> r == 0
  {
    if k < 0 then (if n + k < 0 then 0 else n + k)
    else if k > n then n
    else k
  }

  /** The half-open range of positions selected by `row[start:stop]`; empty when the bounds cross. */
  function SliceBounds(n: nat, start: int, stop: int): (w: (nat, nat))
    ensures w.0 <= w.1 <= n
    ensures SliceIndex(n, start) <= SliceIndex(n, stop) ==> w == (SliceIndex(n, start), SliceIndex(n, stop))
    ensures SliceIndex(n, stop) < SliceIndex(n, start) ==> w.0 == w.1
  {
    var lo := SliceIndex(n, start);
    var hi := SliceIndex(n, stop);
    if hi < lo then (lo, lo) else (lo, hi)
  }

  /**
   * The columns summed at frame `index` in a matrix of `ncols` columns:
   * `[:index+1]` for frames 2 and 3, `[index-4:index+1]` otherwise.
   */
  function Window(ncols: nat, index: int): (w: (nat, nat))
    ensures w.0 <= w.1 <= ncols
    // from the fifth frame on: exactly the five frames ending at `index`
    ensures 4 <= index < ncols ==> w == (index - 4, index + 1)
    // frames 2 and 3: a growing window that starts at frame 0
    ensures (index == 2 || index == 3) && index < ncols ==> w == (0, index + 1)
    // frames 0 and 1: the negative start wraps past the stop, so the window is empty
    ensures 0 <= index <= 1 && 5 <= ncols ==> w.0 == w.1
    // frames 0 and 1 never see more than two columns
    ensures 0 <= index <= 1 ==> w.1 - w.0 <= 2
  {
    if index == 2 || index == 3 then SliceBounds(ncols, 0, index + 1)
    else SliceBounds(ncols, index - 4, index + 1)
  }

  /** The windowed sum of one bin's row at frame `index`. */
  function WindowSum(row: seq<int>, index: int): int
  {
    var w := Window(|row|, index);
    Sum(row[w.0..w.1])
  }

  /** IPMP: the ascending list of exactly the bins whose windowed sum is at least `ConfirmCount`. */
  function Ipmp(m: seq<seq<int>>, index: int): (r: seq<nat>)
    ensures StrictlyIncreasing(r)
    ensures forall f: nat {:trigger f in r} :: f in r <==> f < |m| && WindowSum(m[f], index) >= ConfirmCount
    ensures forall k :: 0 <= k < |r| ==> r[k] < |m|
    ensures |r| <= |m|
  {
    if m == [] then []
    else
      var last := |m| - 1;
      var init := Ipmp(m[..last], index);
      assert forall f :: 0 <= f < last ==> m[..last][f] == m[f];
      if WindowSum(m[last], index) >= ConfirmCount then init + [last] else init
  }

  /** On a 0/1 row the sum counts the marked frames. */
  lemma {:induction false} SumCountsMarks(s: seq<int>)
    requires Binary(s)
    ensures Sum(s) == multiset(s)[1]
    ensures Sum(s) <= |s|
  {
    if s != [] {
      assert Binary(s[1..]);
      SumCountsMarks(s[1..]);
      assert s == [s[0]] + s[1..];
      assert multiset(s) == multiset{s[0]} + multiset(s[1..]);
    }
  }

  /**
   * On a 0/1 matrix a bin is confirmed exactly when at least `ConfirmCount`
   * of the frames in its window marked it.
   */
  lemma ConfirmedIffMarkedInWindow(m: seq<seq<int>>, index: int, f: nat)
    requires f < |m| && Binary(m[f])
    ensures var w := Window(|m[f]|, index);
            f in Ipmp(m, index) <==> multiset(m[f][w.0..w.1])[1] >= ConfirmCount
  {
    var w := Window(|m[f]|, index);
    assert Binary(m[f][w.0..w.1]);
    SumCountsMarks(m[f][w.0..w.1]);
  }

  /** A bin whose window holds at most two marks is never confirmed. */
  lemma AtMostTwoMarksNotConfirmed(m: seq<seq<int>>, index: int, f: nat)
    requires f < |m| && Binary(m[f])
    requires var w := Window(|m[f]|, index); multiset(m[f][w.0..w.1])[1] <= 2
    ensures f !in Ipmp(m, index)
  {
    ConfirmedIffMarkedInWindow(m, index, f);
  }

  /** Frames 0 and 1 confirm nothing on a 0/1 matrix, whatever its width. */
  lemma NothingConfirmedInFirstTwoFrames(m: seq<seq<int>>, index: int)
    requires 0 <= index <= 1
    requires forall f :: 0 <= f < |m| ==> Binary(m[f])
    ensures Ipmp(m, index) == []
  {
    if Ipmp(m, index) != [] {
      var f := Ipmp(m, index)[0];
      assert f in Ipmp(m, index);
      var w := Window(|m[f]|, index);
      assert Binary(m[f][w.0..w.1]);
      SumCountsMarks(m[f][w.0..w.1]);
      assert false;
    }
  }

  /** A bin marked in frames 0, 1 and 2 is confirmed at frame 2. */
  lemma MarkedInFirstThreeFramesConfirmed(m: seq<seq<int>>, f: nat)
    requires f < |m| && 3 <= |m[f]|
    requires m[f][0] == 1 && m[f][1] == 1 && m[f][2] == 1
    ensures f in Ipmp(m, 2)
  {
    var row := m[f];
    assert row[0..3] == [1, 1, 1];
    assert Sum([1, 1, 1]) == 3;
  }
}

=== FILE: screening.dfy ===
/**
 * The screener: merges confirmed bins that lie close together into one
 * representative per cluster, the one with the larger spectral magnitude.
 * The walk keeps a list of representatives; a newcomer closer than
 * `MergeRadius` bins to the last representative either replaces it (when
 * its magnitude is strictly larger) or is dropped; otherwise it opens a new
 * cluster.
 */
module Screener {
  import opened IndexLists

  /** Bins closer than this to the last representative join its cluster. */
  const MergeRadius: int := 3

  /** Every index can be looked up in the magnitude spectrum. */
  predicate InSpectrum(mag: seq<real>, cs: seq<nat>)
  {
    forall k :: 0 <= k < |cs| ==> cs[k] < |mag|
  }

  /** One step of the walk: what the representatives become when `c` arrives. */
  function Absorb(mag: seq<real>, ret: seq<nat>, c: nat): (r: seq<nat>)
    requires InSpectrum(mag, ret) && c < |mag|
    ensures InSpectrum(mag, r)
  {
    if |ret| == 0 then [c]
    else if ret[|ret| - 1] > c - MergeRadius then
      (if mag[ret[|ret| - 1]] < mag[c] then ret[|ret| - 1 := c] else ret)
    else ret + [c]
  }

  /** The representatives the walk keeps after the whole list `cs`. */
  function Screen(mag: seq<real>, cs: seq<nat>): (r: seq<nat>)
    requires InSpectrum(mag, cs)
    ensures InSpectrum(mag, r)
    ensures forall x :: x in r ==> x in cs
    ensures |r| <= |cs|
    ensures r == [] <==> cs == []
  {
    if cs == [] then []
    else
      var init := cs[..|cs| - 1];
      assert cs == init + [cs[|cs| - 1]];
      Absorb(mag, Screen(mag, init), cs[|cs| - 1])
  }

  /** The walk as the source performs it, overwriting the last representative in place. */
  method Screening(mag: seq<real>, cs: seq<nat>) returns (ret: seq<nat>)
    requires InSpectrum(mag, cs)
    ensures ret == Screen(mag, cs)
  {
    ret := [];
    for k := 0 to |cs|
      invariant ret == Screen(mag, cs[..k])
    {
      var c := cs[k];
      assert cs[..k + 1][..k] == cs[..k];
      if |ret| == 0 {
        ret := ret + [c];
      } else if ret[|ret| - 1] > c - MergeRadius {
        if mag[ret[|ret| - 1]] < mag[c] {
          ret := ret[|ret| - 1 := c];
        }
      } else {
        ret := ret + [c];
      }
    }
    assert cs[..|cs|] == cs;
  }

  /**
   * On a sorted duplicate-free input the representatives are sorted and any
   * two consecutive ones are at least `MergeRadius` bins apart.
   */
  lemma {:induction false} ScreenSpaced(mag: seq<real>, cs: seq<nat>)
    requires InSpectrum(mag, cs) && StrictlyIncreasing(cs)
    ensures Spaced(Screen(mag, cs), MergeRadius)
    ensures StrictlyIncreasing(Screen(mag, cs))
  {
    var r := Screen(mag, cs);
    if cs != [] {
      var init := cs[..|cs| - 1];
      var c := cs[|cs| - 1];
      assert StrictlyIncreasing(init);
      ScreenSpaced(mag, init);
      var s := Screen(mag, init);
      // every earlier representative comes from `init`, hence lies below `c`
      forall k | 0 <= k < |s|
        ensures s[k] < c
      {
        assert s[k] in init;
      }
      assert Spaced(r, MergeRadius);
    }
    SpacedIsIncreasing(r, MergeRadius);
  }

  /** An input already spaced at least `MergeRadius` apart passes through unchanged. */
  lemma {:induction false} ScreenKeepsSpacedInput(mag: seq<real>, cs: seq<nat>)
    requires InSpectrum(mag, cs) && Spaced(cs, MergeRadius)
    ensures Screen(mag, cs) == cs
  {
    if cs != [] {
      var init := cs[..|cs| - 1];
      assert Spaced(init, MergeRadius);
      ScreenKeepsSpacedInput(mag, init);
      assert cs == init + [cs[|cs| - 1]];
    }
  }

  /** Screening a sorted input twice gives the same representatives as screening it once. */
  lemma ScreenIdempotent(mag: seq<real>, cs: seq<nat>)
    requires InSpectrum(mag, cs) && StrictlyIncreasing(cs)
    ensures Screen(mag, Screen(mag, cs)) == Screen(mag, cs)
  {
    ScreenSpaced(mag, cs);
    ScreenKeepsSpacedInput(mag, Screen(mag, cs));
  }

  /**
   * A newcomer within the merge radius of the last representative takes its
   * place only when its magnitude is strictly larger: on a tie the earlier
   * bin stays. The earlier representatives are untouched and the kept one
   * has the larger magnitude of the two.
   */
  lemma ScreenMergeKeepsStronger(mag: seq<real>, cs: seq<nat>, c: nat)
    requires InSpectrum(mag, cs) && c < |mag|
    requires var s := Screen(mag, cs); s != [] && s[|s| - 1] > c - MergeRadius
    ensures var s := Screen(mag, cs);
            var t := Screen(mag, cs + [c]);
            && |t| == |s|
            && t[..|t| - 1] == s[..|s| - 1]
            && (t[|t| - 1] == c <==> mag[s[|s| - 1]] < mag[c] || s[|s| - 1] == c)
            && mag[t[|t| - 1]] >= mag[c]
            && mag[t[|t| - 1]] >= mag[s[|s| - 1]]
            && (mag[s[|s| - 1]] < mag[c] ==> t == s[..|s| - 1] + [c])
            && (!(mag[s[|s| - 1]] < mag[c]) ==> t == s)
  {
    var s := Screen(mag, cs);
    ScreenSnoc(mag, cs, c);
    AbsorbMerge(mag, s, c);
    var t := Absorb(mag, s, c);
    assert t == Screen(mag, cs + [c]);
  }

  /** One merging step of the walk keeps the stronger of the last representative and the newcomer. */
  lemma AbsorbMerge(mag: seq<real>, s: seq<nat>, c: nat)
    requires InSpectrum(mag, s) && c < |mag|
    requires s != [] && s[|s| - 1] > c - MergeRadius
    ensures var t := Absorb(mag, s, c);
            && |t| == |s|
            && t[..|t| - 1] == s[..|s| - 1]
            && (t[|t| - 1] == c <==> mag[s[|s| - 1]] < mag[c] || s[|s| - 1] == c)
            && mag[t[|t| - 1]] >= mag[c]
            && mag[t[|t| - 1]] >= mag[s[|s| - 1]]
            && (mag[s[|s| - 1]] < mag[c] ==> t == s[..|s| - 1] + [c])
            && (!(mag[s[|s| - 1]] < mag[c]) ==> t == s)
  {
  }

  /** A newcomer at least `MergeRadius` past the last representative, or the first one, is appended. */
  lemma AbsorbOpens(mag: seq<real>, s: seq<nat>, c: nat)
    requires InSpectrum(mag, s) && c < |mag|
    requires s == [] || s[|s| - 1] <= c - MergeRadius
    ensures Absorb(mag, s, c) == s + [c]
  {
  }

  /** A newcomer at least `MergeRadius` past the last representative opens a new cluster. */
  lemma ScreenOpensCluster(mag: seq<real>, cs: seq<nat>, c: nat)
    requires InSpectrum(mag, cs) && c < |mag|
    requires var s := Screen(mag, cs); s != [] && s[|s| - 1] <= c - MergeRadius
    ensures Screen(mag, cs + [c]) == Screen(mag, cs) + [c]
  {
    ScreenSnoc(mag, cs, c);
  }

  /** Screening one more bin is one more step of the walk. */
  lemma ScreenSnoc(mag: seq<real>, cs: seq<nat>, c: nat)
    requires InSpectrum(mag, cs) && c < |mag|
    ensures InSpectrum(mag, cs + [c])
    ensures Screen(mag, cs + [c]) == Absorb(mag, Screen(mag, cs), c)
  {
    var t := cs + [c];
    assert t[..|t| - 1] == cs;
  }
}

=== FILE: simulation.dfy ===
/**
 * The sample-by-sample simulation of the feedback loop with adaptive notch
 * filtering, over the loop variables of `FeedbackLoop.State` and a speaker
 * output buffer written in place.
 */
module Simulation {
  import opened IndexLists
  import opened Criteria
  import opened Persistence
  import opened Screener
  import opened FilterBank
  import opened Detector
  import opened FeedbackLoop

  /**
   * Processes input sample `next`: the microphone takes the input plus the
   * feedback, the detection side advances with it, and the amplified,
   * clipped microphone sample goes through the cascade in force afterwards.
   *
   * `written` is the output slot that receives `out`: the current sample,
   * except after a redesign, where the design loop has reused the sample
   * index as its counter and the slot is the last section's index, an
   * earlier sample. `ok` is false when the filter's orders do not fit the
   * delay lines, where the difference equation is undefined and the run
   * cannot go on.
   */
  method Step(e: Setup, s: State) returns (d: Detection, l: Delays, ok: bool, detected: seq<nat>, written: nat, out: real)
    requires Shaped(e) && Inv(e, s) && s.det.next < |e.x|
    ensures DetectionInv(e, d) && DelaysInv(e, l) && d.next == s.det.next + 1 && written <= s.det.next
    ensures Advanced(e, s.det, e.x[s.det.next] + s.delays.y1, d, detected, written)
    ensures Filtered(e, s.delays, Clip(Gain * (e.x[s.det.next] + s.delays.y1)), d.cascade.b, d.cascade.a, l, ok, out)
  {
    d, detected, written := Advance(e, s.det, e.x[s.det.next] + s.delays.y1);
    ok, l, out := Filter(e, s.delays, Clip(Gain * (e.x[s.det.next] + s.delays.y1)), d.cascade.b, d.cascade.a);
  }

  /** The detection side takes microphone sample `x1`; the frame is analysed when it is full. */
  method Advance(e: Setup, d: Detection, x1: real) returns (d': Detection, detected: seq<nat>, written: nat)
    requires Shaped(e) && DetectionInv(e, d) && d.next < |e.x|
    ensures DetectionInv(e, d') && d'.next == d.next + 1 && written <= d.next
    ensures Advanced(e, d, x1, d', detected, written)
  {
    ProgressStep(d.next, d.pos, d.frameId, e.p);
    var f := d.frame[d.pos := x1];
    if d.pos + 1 == e.p.slen {
      BoundaryWithinColumns(d.next, |e.x|, d.pos, d.frameId, e.p);
      d', detected, written := EndOfFrame(e, d, f);
    } else {
      d' := d.(next := d.next + 1, pos := d.pos + 1, frame := f);
      detected, written := [], d.next;
    }
  }

  /**
   * The work done when the frame `f` is full: detection on its spectrum,
   * the redesign of the cascade when the detected bins changed, and the
   * shift of the frame by one hop.
   */
  method EndOfFrame(e: Setup, d: Detection, f: seq<real>) returns (d': Detection, detected: seq<nat>, written: nat)
    requires Shaped(e) && DetectionInv(e, d) && |f| == e.p.slen && d.next < |e.x|
    requires d.pos + 1 == e.p.slen && d.frameId < e.p.nframes + 1
    ensures DetectionInv(e, d') && written <= d.next
    ensures FrameEnded(e, d, f, d', detected, written)
  {
    var spec := e.analyse(f);
    var marked;
    detected, marked := HowlingDetect(spec, e.p.slen, d.candidates, d.frameId);
    var cascade;
    cascade, written := UpdateCascade(e, d.cascade, detected, d.next);
    d' := Detection(d.next + 1, e.p.len2, d.frameId + 1, f[e.p.len2..] + f[e.p.slen - e.p.len2..], marked, cascade);
  }

  /**
   * Keeps the cascade `c` unless the detected bins ask for a redesign, as
   * `Redesigned` says; `sample` is the current input sample.
   */
  method UpdateCascade(e: Setup, c: Cascade, detected: seq<nat>, sample: nat) returns (c': Cascade, written: nat)
    requires WellFormed(e.p) && e.p.slen - 1 <= sample && e.p.slen <= |e.freqs|
    requires NotchesValid(e, c) && Spaced(detected, MergeRadius)
    requires forall k :: 0 <= k < |detected| ==> EdgeBins <= detected[k] && detected[k] + EdgeBins < e.p.slen
    ensures NotchesValid(e, c') && written <= sample
    ensures Redesigned(e, c, c', detected, sample, written)
  {
    c', written := c, sample;
    if NeedsRedesign(detected, c.notchFreqs, e.freqs) {
      var hz, b, a;
      hz, b, a, written := Redesign(e, detected, sample);
      c' := Cascade(detected, hz, b, a);
    }
  }

  /**
   * The cascade for the detected bins: one notch section per bin's
   * frequency, multiplied out into one transfer function. The design loop
   * counts with the sample index, so `written` comes back as the last
   * section's index, which lies before the current sample `sample`.
   */
  method Redesign(e: Setup, detected: seq<nat>, sample: nat) returns (hz: seq<real>, b: seq<real>, a: seq<real>, written: nat)
    requires WellFormed(e.p) && e.p.slen - 1 <= sample && detected != [] && OnAxis(detected, e.freqs)
    requires Spaced(detected, MergeRadius)
    requires forall k :: 0 <= k < |detected| ==> EdgeBins <= detected[k] && detected[k] + EdgeBins < e.p.slen
    ensures hz == Pick(e.freqs, detected)
    ensures (b, a) == Sos2Tf(Sections(hz, e.notch))
    ensures written == |detected| - 1 && written < sample
  {
    hz := Pick(e.freqs, detected);
    var sos := DesignSections(hz, e.notch);
    written := |hz| - 1;
    DetectedCountBound(detected, e.p.slen);
    b, a := Sos2Tf(sos).0, Sos2Tf(sos).1;
  }

  /** The notch filter for one sample, as `Filtered` says. */
  method Filter(e: Setup, l: Delays, v: real, b: seq<real>, a: seq<real>) returns (ok: bool, l': Delays, out: real)
    requires DelaysInv(e, l) && 1 <= |e.rir|
    ensures DelaysInv(e, l')
    ensures Filtered(e, l, v, b, a, l', ok, out)
  {
    var x2 := Push(l.x2, v);
    l', out := l.(x2 := x2), 0.0;
    ok := FitsDelayLines(b, a, |x2|, |l.x3|);
    if ok {
      out := Clip(IirOutput(x2, l.x3, b, a));
      var x3 := Push(l.x3, out);
      l' := Delays(x2, x3, Dot(x3, e.rir));
    }
  }

  /**
   * Runs the loop over the whole input, writing the speaker output into a
   * zeroed buffer of one slot per input sample. It stops early only when the
   * cascade in force does not fit the delay lines (a redesigned one, or
   * already the initial one when the impulse response has a single tap);
   * otherwise every sample
   * is processed and the detector has run once per frame boundary,
   * `nframes + 1` times for an input of at least one frame. The slots of the
   * samples the run never reached stay zero, and so does the slot of a
   * sample whose output went to an earlier slot after a redesign.
   */
  method Run(e: Setup) returns (y: array<real>, ok: bool, s: State)
    requires Shaped(e)
    ensures fresh(y) && y.Length == |e.x|
    ensures Inv(e, s)
    ensures ok ==> s.det.next == |e.x| && s.det.frameId == (if e.p.slen <= |e.x| then e.p.nframes + 1 else 0)
    ensures !ok ==> 0 < s.det.next && !FitsDelayLines(s.det.cascade.b, s.det.cascade.a, InputDelayLength, |e.rir|)
    ensures forall j :: s.det.next <= j < |e.x| ==> y[j] == 0.0
  {
    y := new real[|e.x|](_ => 0.0);
    s := Initial(e);
    ok := true;
    while ok && s.det.next < |e.x|
      invariant Inv(e, s)
      invariant !ok ==> 0 < s.det.next && !FitsDelayLines(s.det.cascade.b, s.det.cascade.a, InputDelayLength, |e.rir|)
      invariant forall j :: s.det.next <= j < |e.x| ==> y[j] == 0.0
      decreases |e.x| - s.det.next, ok
    {
      var d, l, detected, written, out;
      var current := s.det.next;
      d, l, ok, detected, written, out := Step(e, s);
      s := State(d, l);
      if ok {
        y[written] := out;
      }
      // after a redesign the output went to an earlier slot: the current one is still zero
      assert written < current ==> y[current] == 0.0;
    }
    if ok {
      ProgressDeterminesCounters(|e.x|, s.det.pos, s.det.frameId, e.p);
      CountersMakeProgress(|e.x|, e.p);
      if e.p.slen <= |e.x| {
        FrameCount(|e.x|, e.p);
        TwoHopsPerFrame(e.p.len2);
      }
    }
  }
}
